=== FILE: README.md ===
# Diamond top-up storefront — a Dafny model of its pages

This project models the client-side logic of a web storefront that sells
in-game diamond packs and memberships. Buyers pay by bKash, Nagad or Binance
and type in the transaction id. An administrator then marks each order
completed or cancelled. The model covers:

- the seed catalog, the default site settings and the administrator id (`Constants`);
- the application store's collections as the pages call them (`Store`): the
  `Store.Store` class holds packages, orders, settings and the current user,
  and its methods change them in place;
- the order page (`OrderPage`): the rounded-up service charge and total, the
  payment form with its defaults and required fields, and the payee shown per
  payment method. Submission captures the form. A delayed completion then
  builds a PENDING order and appends exactly that order to the store;
- the admin panel (`AdminPanel`): revenue and pending-order statistics, the
  status buttons offered per order, status changes, deleting, adding and
  re-pricing packages, and settings edits saved to the store;
- the user dashboard (`Dashboard`): the user's own orders, the amount spent on
  completed orders, the status badge colours and the empty state;
- the home page (`Home`): the category tabs and the catalog filtered by tab;
- the page frame (`Layout`): navigation slugs and highlighting, the admin
  button, and sign-out.

`Seqs` holds the `filter`/`reduce` shapes the pages use, with their laws.
`Text` holds ASCII `toLowerCase`/`toUpperCase` and the navigation slug.
Money is in whole taka, modelled as unbounded integers.

In these places the model follows the code as written:

- the store operations report no errors (no not-found or duplicate-id
  outcome);
- an order's status can be set to any value (the only restriction is which
  buttons the admin panel shows);
- the service-charge percent has no input on the settings form;
- the order form collects no login details for in-game packs.

## Model

| member | source | states |
|---|---|---|
| Constants.InitialCatalogIdsDistinct | constants.ts:4-27 | the 17 seed packages have pairwise distinct ids |
| Constants.InitialCatalogPricesPositive | constants.ts:4-27 | there are 17 seed packages and every price is positive |
| Constants.InitialCatalogAmountsFitKinds | constants.ts:4-27 | memberships carry 0 diamonds and the other kinds a positive amount |
| Constants.InitialCatalogDeliveryFitsKinds | constants.ts:4-27 | each seed package has its kind's delivery estimate: 5-10, 15-45 or 10-30 minutes |
| Constants.InitialCatalogGroupedByKind | constants.ts:4-27 | the seed catalog lists the 9 UID packs, then the 4 in-game packs, then the 4 memberships |
| Constants.RiseFromSteps | constants.ts:5-19 | amounts and prices that rise from each entry to the next rise between any two entries of the range |
| Constants.InitialCatalogPricesRise | constants.ts:5-19 | within the UID and the in-game kinds, a later package holds more diamonds and costs more |
| Constants.DefaultServiceChargeInRange | constants.ts:34 | the default service-charge percent is 0, inside 0..100 |
| Constants.DefaultNoticeTextExact | constants.ts:33 | the default notice keeps the text's 137 code points, the precomposed letter U+09DF included |
| Store.SetStatus | pages/AdminPanel.tsx:21-24 | a status update keeps the number of orders |
| Store.Restatus | pages/AdminPanel.tsx:21-24 | one order gets the new status exactly when it carries the id; every other field stays as it was |
| Store.SetStatusSpec | pages/AdminPanel.tsx:21-24 | a status update keeps the list's order and restatuses each order where it stands |
| Store.SetStatusAbsent | pages/AdminPanel.tsx:21-24 | an id no order carries leaves the list unchanged |
| Store.SetStatusKeepsPricing | pages/AdminPanel.tsx:21-24 | a status change keeps total = price + charge for every order |
| Store.RemovePackage | pages/AdminPanel.tsx:28 | deleting a package by id never lengthens the catalog |
| Store.RemovePackageSpec | pages/AdminPanel.tsx:26-31 | after deleting id, the catalog holds exactly the packages whose id differs, each as often as before, in their old order |
| Store.Store.constructor | constants.ts:4-39 | a fresh store holds the seed catalog, no orders, the default settings and no user |
| Store.Store.AddOrder | pages/OrderPage.tsx:53 | the order is appended; packages, settings and user are unchanged |
| Store.Store.AddPackage | pages/AdminPanel.tsx:43 | the package is appended; orders, settings and user are unchanged |
| Store.Store.DeletePackage | pages/AdminPanel.tsx:28 | the catalog loses exactly the packages with that id; orders keep their own copies |
| Store.Store.UpdatePackages | pages/AdminPanel.tsx:51 | the catalog is replaced; nothing else changes |
| Store.Store.UpdateOrderStatus | pages/AdminPanel.tsx:22 | the orders become SetStatus of the old orders; nothing else changes |
| Store.Store.UpdateSettings | pages/AdminPanel.tsx:56 | the settings record is overwritten whole; nothing else changes |
| Store.Store.SetCurrentUser | components/Layout.tsx:18 | the user slot takes the value; nothing else changes |
| Seqs.Filter | pages/Home.tsx:16 | a filtered list is never longer than its source |
| Seqs.FilterMembership | pages/Dashboard.tsx:12 | x is kept by a filter exactly when it is in the list and passes the test |
| Seqs.FilterMultiplicity | pages/Dashboard.tsx:12 | a kept element occurs as often as in the source; a rejected one not at all |
| Seqs.FilterAppend | pages/AdminPanel.tsx:61-62 | filtering a concatenation is the concatenation of the filtered parts |
| Seqs.FilterIsSubsequence | pages/Dashboard.tsx:12 | a filter keeps the source's order |
| Seqs.SubsequenceLength | pages/Dashboard.tsx:12 | a subsequence is never longer than its sequence |
| Seqs.FilterCommutes | pages/Dashboard.tsx:12-15 | filtering by two tests in either order gives the same list |
| Seqs.SumBy | pages/AdminPanel.tsx:61 | the summing reduce, folded from the left from 0 (no contract; `SumByAppend` and `SumByFilterLe` characterise it) |
| Seqs.SumByAppend | pages/AdminPanel.tsx:61 | the summed reduce over a concatenation is the sum of the parts |
| Seqs.SumByFilterLe | pages/Dashboard.tsx:13-15 | over non-negative values, the sum over a filtered list lies between 0 and the sum over the whole list |
| Text.LowerChar | components/Layout.tsx:56 | a capital becomes the lower-case letter at the same place in the alphabet; every other character is kept; the result is no capital |
| Text.UpperChar | pages/OrderPage.tsx:36 | a lower-case letter becomes the capital at the same place in the alphabet; every other character is kept; the result is no lower-case letter |
| Text.ToLower | components/Layout.tsx:56 | same length; each character is lowered |
| Text.ToUpper | pages/OrderPage.tsx:36 | same length; each character is raised |
| Text.DashSpaces | components/Layout.tsx:56 | same length; every space becomes one dash, all else is kept |
| Text.Slug | components/Layout.tsx:56 | a slug has the item's length and holds no space and no ASCII capital |
| Text.SlugKeeps | components/Layout.tsx:56 | characters other than capitals and spaces pass through unchanged |
| Text.SlugIdempotent | components/Layout.tsx:56-57 | slugging a slug changes nothing |
| Text.SlugFixedPoint | components/Layout.tsx:57 | a page name free of spaces and capitals is its own slug |
| OrderPage.ServiceCharge | pages/OrderPage.tsx:14 | the charge is the least whole amount c with 100·c ≥ price·percent: the ceiling, never rounded down |
| OrderPage.TotalPayable | pages/OrderPage.tsx:15 | the total is the ceiling of price·(100+percent)/100; it is at least the price for a non-negative charge and exactly the price at 0 % |
| OrderPage.ServiceChargeMonotone | pages/OrderPage.tsx:14 | at a non-negative rate a higher price never has a lower charge |
| OrderPage.ServiceChargeExamples | pages/OrderPage.tsx:14 | 155 at 0 % costs 0; 100 at 5 % costs 5; 101 at 5 % costs 6 (rounded up) |
| OrderPage.DefaultTotalIsPrice | pages/OrderPage.tsx:13-15 | under the default settings the buyer pays exactly the package price |
| OrderPage.PaymentMethodsOffered | pages/OrderPage.tsx:17-23 | the form starts with bKash, the first of three distinct methods, and with empty player id, sender number and transaction id |
| OrderPage.SetField | pages/OrderPage.tsx:201 | an input change sets that field to the value and keeps every other field |
| OrderPage.RequiredFilled | pages/OrderPage.tsx:196-282 | the form passes the browser's `required` check exactly when player id, sender number and transaction id are non-empty (no contract; `RequiredFieldsExactly` states its consequences) |
| OrderPage.RequiredFieldsExactly | pages/OrderPage.tsx:196 | the player id, sender number and transaction id are each needed for submission; the account name is not |
| OrderPage.Payee | pages/OrderPage.tsx:255 | bKash shows the bKash number, Nagad the Nagad number, any other method the Binance id |
| OrderPage.PayeeOfOfferedMethods | pages/OrderPage.tsx:227-255 | the three offered methods name the three payment destinations in order; the default method names the bKash number |
| OrderPage.OrderId | pages/OrderPage.tsx:36 | an order id is "ORD-" followed by the suffix in upper case, with no lower-case letter after the prefix |
| OrderPage.NewOrder | pages/OrderPage.tsx:35-51 | the new order has the id `OrderId(suffix)` and the given creation time, is PENDING, owned by the buyer's id, holds the package's id, name, amount and price and the form's fields, and its total is its price plus its rounded-up charge |
| OrderPage.OrderPageState.constructor | pages/OrderPage.tsx:17-27 | the page opens with the default form, not submitting, no order placed; the form holds an offered payment method |
| OrderPage.OrderPageState.FormShown | pages/OrderPage.tsx:64 | the form is on screen unless the success card is showing a placed order (no contract; `Submit` relies on it) |
| OrderPage.OrderPageState.Edit | pages/OrderPage.tsx:201-282 | an input of the shown form changes that one form field; the payment method can only become one of the three tiles (pages/OrderPage.tsx:227-230), so the form keeps an offered method; the submission slots are untouched |
| OrderPage.OrderPageState.Submit | pages/OrderPage.tsx:29-31 | a submission is taken exactly when the form is shown, none is running and the required fields are filled; it marks the page submitting and captures the form, which holds an offered payment method |
| OrderPage.OrderPageState.Complete | pages/OrderPage.tsx:34-57 | the order built from the captured form has the charge and total the page showed and one of bKash, Nagad or Binance as its method, so the buyer is told one of the three payment destinations; the store's orders grow by exactly that one order, packages, settings and user stay; the success card shows it |
| AdminPanel.TotalRevenue | pages/AdminPanel.tsx:61 | the summed totals of the completed orders (no contract; `TotalRevenueBounds` and `TotalRevenueAppend` characterise it) |
| AdminPanel.TotalRevenueBounds | pages/AdminPanel.tsx:61 | with non-negative totals, revenue lies between 0 and the total of all orders |
| AdminPanel.PendingCount | pages/AdminPanel.tsx:62 | the number of pending orders never exceeds the number of orders |
| AdminPanel.TotalRevenueAppend | pages/AdminPanel.tsx:61 | revenue of no orders is 0; appending an order adds its total exactly when it is completed |
| AdminPanel.TotalRevenueMonotone | pages/AdminPanel.tsx:61 | a new order with a non-negative total never lowers revenue |
| AdminPanel.PendingCountAppend | pages/AdminPanel.tsx:62 | appending an order raises the pending count by one exactly when it is pending |
| AdminPanel.PendingCountZero | pages/AdminPanel.tsx:62 | the pending count is 0 exactly when no order is pending |
| AdminPanel.SetStatusPendingCount | pages/AdminPanel.tsx:21-24 | setting any status other than PENDING never raises the pending count |
| AdminPanel.SetStatusCompletedRevenue | pages/AdminPanel.tsx:21-24 | marking orders completed never lowers revenue, for non-negative totals |
| AdminPanel.StatusActions | pages/AdminPanel.tsx:154-169 | only a PENDING order has status buttons, and they lead to COMPLETED and CANCELLED and nowhere else |
| AdminPanel.OfferedActionResolvesOne | pages/AdminPanel.tsx:154-169 | taking an offered action on an order whose id is unique lowers the pending count by exactly one |
| AdminPanel.UpdatePrice | pages/AdminPanel.tsx:50 | the re-priced catalog has the same length and ids; the package with the id gets the new price, all else is kept |
| AdminPanel.UpdatePriceKeepsCatalog | pages/AdminPanel.tsx:50 | a price edit keeps ids distinct, amounts fitting kinds and delivery estimates, and keeps prices positive for a positive new price |
| AdminPanel.StringOr | pages/AdminPanel.tsx:37 | a present non-empty string is kept; a missing or empty one gives the fallback |
| AdminPanel.NumberOrZero | pages/AdminPanel.tsx:38-39 | a present number is kept; a missing one gives 0 |
| AdminPanel.BuildPackage | pages/AdminPanel.tsx:35-42 | the new package's id is "pkg-" and the timestamp; name, price, amount, kind and delivery come from the draft or their fallbacks; the delivery estimate is never empty |
| AdminPanel.DraftDefaultsAgree | pages/AdminPanel.tsx:13-19 | an empty draft and the fresh draft build the same package: unnamed, free, 0 diamonds, a UID pack with the UID delivery estimate |
| AdminPanel.ApplyDraftEdit | pages/AdminPanel.tsx:305-319 | an add-form input sets its one field (name, price, amount or kind) and keeps every other field, the delivery estimate included |
| AdminPanel.DraftEditsStayReachable | pages/AdminPanel.tsx:13-19 | the fresh draft has every field, an offered kind and the 5-10 minute estimate, and the offered edits (kind only diamond or membership) keep a draft so |
| AdminPanel.ReachableDraftBuild | pages/AdminPanel.tsx:35-42 | a package built from such a draft is a UID pack or a membership with the 5-10 minute estimate, so an added membership does not carry the 10-30 minute estimate of the seed memberships |
| AdminPanel.DraftSubmittable | pages/AdminPanel.tsx:305-314 | the add form submits only with a non-empty name and both number fields filled (no contract; used by `HandleAddPackage`) |
| AdminPanel.SubmittedDraftKept | pages/AdminPanel.tsx:35-42 | a draft that passes the browser's check yields a package with exactly the typed name, price and amount |
| AdminPanel.SetSetting | pages/AdminPanel.tsx:230-277 | one settings field takes the value; the other five and the service-charge percent keep theirs |
| AdminPanel.SetSettingSameValue | pages/AdminPanel.tsx:230 | writing back a field's own value changes nothing |
| AdminPanel.AdminPanelState.constructor | pages/AdminPanel.tsx:8-19 | the panel starts from the store's orders, packages and settings with the fresh draft and the add form closed |
| AdminPanel.AdminPanelState.HandleUpdateStatus | pages/AdminPanel.tsx:21-24 | the store's orders become SetStatus of the old ones and the panel shows them; catalog and settings are untouched |
| AdminPanel.AdminPanelState.HandleDeletePackage | pages/AdminPanel.tsx:26-31 | when confirmed, the store and the panel lose the packages with that id; otherwise nothing changes; orders are untouched either way |
| AdminPanel.AdminPanelState.OpenAddModal | pages/AdminPanel.tsx:184 | the add form opens with the current draft |
| AdminPanel.AdminPanelState.CloseAddModal | pages/AdminPanel.tsx:298 | the close button hides the add form and keeps the draft |
| AdminPanel.AdminPanelState.EditDraft | pages/AdminPanel.tsx:305-319 | one add-form input changes its field of the draft; the draft stays one the form can hold |
| AdminPanel.AdminPanelState.HandleAddPackage | pages/AdminPanel.tsx:33-47 | a package is added exactly when the form is open and its required inputs are filled: then the package built from the draft is appended to the store and shown, and the form closes and resets; otherwise nothing changes; every added package is a UID pack or a membership with the 5-10 minute estimate |
| AdminPanel.AdminPanelState.HandleUpdatePrice | pages/AdminPanel.tsx:49-53 | the panel's own catalog is re-priced and written whole to the store; orders keep their prices |
| AdminPanel.AdminPanelState.EditSetting | pages/AdminPanel.tsx:230-277 | a settings input changes only the panel's copy |
| AdminPanel.AdminPanelState.SaveSettings | pages/AdminPanel.tsx:55-58 | the store's settings become the panel's copy; nothing else changes |
| Dashboard.UserOrders | pages/Dashboard.tsx:12 | the user's list is never longer than all orders |
| Dashboard.UserOrdersExactly | pages/Dashboard.tsx:12 | an order is listed exactly when it is stored and owned by the user's id, as often as it is stored, in store order |
| Dashboard.UserOrdersAppend | pages/Dashboard.tsx:12 | orders added later extend the user's list only with the user's own |
| Dashboard.TotalSpent | pages/Dashboard.tsx:13-15 | the summed totals of the user's completed orders (no contract; `TotalSpentBounds` and `TotalSpentAtMostRevenue` characterise it) |
| Dashboard.TotalSpentBounds | pages/Dashboard.tsx:13-15 | the amount spent lies between 0 and the sum of all the user's totals, and is 0 without orders |
| Dashboard.TotalSpentAtMostRevenue | pages/Dashboard.tsx:13-15 | what one user spent never exceeds the revenue the admin panel shows |
| Dashboard.StatusColor | pages/Dashboard.tsx:19-27 | the badge classes for each of the four statuses (no contract; `StatusColorsDistinct` states that they differ) |
| Dashboard.StatusColorsDistinct | pages/Dashboard.tsx:19-27 | two statuses get the same badge exactly when they are the same status |
| Dashboard.ShowsEmptyState | pages/Dashboard.tsx:82 | the empty card shows when the user's list is empty (no contract; `EmptyStateExactlyWithoutOrders` characterises it) |
| Dashboard.EmptyStateExactlyWithoutOrders | pages/Dashboard.tsx:82 | "No Records Found" shows exactly when no stored order belongs to the user |
| Home.FilteredPackages | pages/Home.tsx:16 | a tab never lists more packages than the catalog holds |
| Home.FilteredPackagesExactly | pages/Home.tsx:16 | a tab lists exactly the catalog's packages of its kind, in catalog order |
| Home.TabsPartitionCatalog | pages/Home.tsx:16-22 | the three tabs together list every package exactly once |
| Home.CategoriesCoverEachKindOnce | pages/Home.tsx:14-22 | three tabs, one per kind, none repeated; the first is the default tab |
| Layout.NavTargets | components/Layout.tsx:53-56 | the three items lead to "home", "how-to-buy" and "contact" |
| Layout.IsHighlighted | components/Layout.tsx:57 | an item is highlighted when the current page is its slug (no contract; `HighlightUnique` and `GuideLinkNotHighlighted` state its consequences) |
| Layout.HighlightUnique | components/Layout.tsx:57 | no page highlights two navigation items |
| Layout.GuideLinkNotHighlighted | components/Layout.tsx:127 | the guide links' page "how-to" highlights no navigation item |
| Layout.ShowsAdminButton | components/Layout.tsx:65-76 | the admin button shows exactly for a signed-in user whose uid is the administrator id |
| Layout.LayoutState.constructor | components/Layout.tsx:14 | the frame starts with the store's current user |
| Layout.LayoutState.HandleLogout | components/Layout.tsx:17-21 | sign-out clears the user in the store and the frame, hides the admin button and goes to "home"; catalog, orders and settings are untouched |

## Left out

- The store's own implementation and any persistence behind it are not part of this model. Each store call is modelled by the effect its call sites rely on.
- Rendering, styling, icons, modals' look, tab switching and the marquee notice are not modelled; only state and computed values are.
- The browser's confirmation dialog is a `confirmed` parameter of `AdminPanel.AdminPanelState.HandleDeletePackage`.
- The "settings saved" alert and copy-to-clipboard are left out; neither changes modelled state.
- The success card's "Order More" button (pages/OrderPage.tsx:128) reloads the browser page, which is navigation outside this model: the model does not capture that the reload discards every page's state.
- `OrderPage.OrderPageState.Submit` and `OrderPage.OrderPageState.Complete` split the submission at its 1.5-second timer; the delay itself is not modelled.
- `OrderPage.OrderId`: the random suffix is a parameter, and `NewOrder`'s creation time is a parameter string rather than the clock.
- `AdminPanel.BuildPackage`: the `Date.now()` timestamp is a parameter string.
- JavaScript numbers are modelled as unbounded integers: fractional prices, `NaN` from an unparsable price field and floating-point rounding are not modelled.
- `Text.ToLower` and `Text.ToUpper` change only ASCII letters; Unicode case mapping is not modelled.
- The order page reads the settings once, when it opens, where the storefront re-reads them on every render.
- The dashboard's fallback badge colour is unreachable with the four statuses and is not modelled.
- The package card, contact and how-to-buy pages are outside this model; the app's router that maps page names to pages is not part of this model.
- The login flow is outside this model; a user is given to the pages as a value.

=== FILE: admin_panel.dfy ===
/** The admin panel: order statistics, the status actions offered per order,
    price edits and additions on the catalog, and field-by-field settings edits
    that are written to the store on save. */
module AdminPanel {
  import opened Types
  import opened Seqs
  import Constants
  import Store

  /** `orders.filter(COMPLETED).reduce((acc, o) => acc + o.totalPayable, 0)`. */
  function TotalRevenue(orders: seq<Order>): int {
    SumBy(TotalOf(), Filter(HasStatus(Completed), orders))
  }

  /** `orders.filter(PENDING).length`. */
  function PendingCount(orders: seq<Order>): (n: nat)
    ensures n <= |orders|
  {
    |Filter(HasStatus(Pending), orders)|
  }

  /** With non-negative totals, revenue lies between 0 and the total of all
      orders, whatever their status. */
  lemma TotalRevenueBounds(orders: seq<Order>)
    requires forall i :: 0 <= i < |orders| ==> orders[i].totalPayable >= 0
    ensures 0 <= TotalRevenue(orders) <= SumBy(TotalOf(), orders)
  {
    forall x | x in orders ensures TotalOf()(x) >= 0 {
      var i :| 0 <= i < |orders| && orders[i] == x;
    }
    SumByFilterLe(TotalOf(), HasStatus(Completed), orders);
  }

  /** Revenue grows exactly by the total of an appended completed order. */
  lemma TotalRevenueAppend(orders: seq<Order>, o: Order)
    ensures TotalRevenue([]) == 0
    ensures TotalRevenue(orders + [o]) ==
      TotalRevenue(orders) + (if o.status == Completed then o.totalPayable else 0)
  {
    var one := if o.status == Completed then [o] else [];
    FilterAppend(HasStatus(Completed), orders, [o]);
    assert Filter(HasStatus(Completed), [o]) == one by {
      assert [o][..0] == [];
    }
    SumByAppend(TotalOf(), Filter(HasStatus(Completed), orders), one);
    assert SumBy(TotalOf(), one) == if o.status == Completed then o.totalPayable else 0 by {
      assert [o][..0] == [];
    }
  }

  lemma TotalRevenueMonotone(orders: seq<Order>, o: Order)
    requires o.totalPayable >= 0
    ensures TotalRevenue(orders) <= TotalRevenue(orders + [o])
  {
    TotalRevenueAppend(orders, o);
  }

  lemma PendingCountAppend(orders: seq<Order>, o: Order)
    ensures PendingCount(orders + [o]) == PendingCount(orders) + (if o.status == Pending then 1 else 0)
  {
    FilterAppend(HasStatus(Pending), orders, [o]);
    assert [o][..0] == [];
  }

  /** No pending order counted exactly when no order is pending. */
  lemma PendingCountZero(orders: seq<Order>)
    ensures PendingCount(orders) == 0 <==> forall i :: 0 <= i < |orders| ==> orders[i].status != Pending
  {
    if PendingCount(orders) != 0 {
      var f := Filter(HasStatus(Pending), orders);
      FilterMembership(HasStatus(Pending), orders, f[0]);
    } else {
      forall i | 0 <= i < |orders| ensures orders[i].status != Pending {
        FilterMembership(HasStatus(Pending), orders, orders[i]);
      }
    }
  }

  /** Moving orders to any status but PENDING never adds pending orders. */
  lemma {:induction false} SetStatusPendingCount(orders: seq<Order>, id: string, s: OrderStatus)
    requires s != Pending
    ensures PendingCount(Store.SetStatus(orders, id, s)) <= PendingCount(orders)
    decreases |orders|
  {
    if orders != [] {
      var init, last := orders[..|orders| - 1], orders[|orders| - 1];
      var x := Store.Restatus(last, id, s);
      assert Store.SetStatus(orders, id, s) == Store.SetStatus(init, id, s) + [x];
      SetStatusPendingCount(init, id, s);
      PendingCountAppend(Store.SetStatus(init, id, s), x);
      assert orders == init + [last];
      PendingCountAppend(init, last);
    }
  }

  /** Appending orders whose revenue contributions compare keeps two
      revenues in the same order. */
  lemma TotalRevenueStep(a: seq<Order>, b: seq<Order>, x: Order, y: Order)
    requires TotalRevenue(a) <= TotalRevenue(b)
    requires (if x.status == Completed then x.totalPayable else 0)
          <= (if y.status == Completed then y.totalPayable else 0)
    ensures TotalRevenue(a + [x]) <= TotalRevenue(b + [y])
  {
    TotalRevenueAppend(a, x);
    TotalRevenueAppend(b, y);
  }

  /** Completing orders never lowers revenue, when totals are non-negative. */
  lemma {:induction false} SetStatusCompletedRevenue(orders: seq<Order>, id: string)
    requires forall i :: 0 <= i < |orders| ==> orders[i].totalPayable >= 0
    ensures TotalRevenue(orders) <= TotalRevenue(Store.SetStatus(orders, id, Completed))
    decreases |orders|
  {
    if orders != [] {
      var init, last := orders[..|orders| - 1], orders[|orders| - 1];
      var x := Store.Restatus(last, id, Completed);
      assert x.totalPayable == last.totalPayable && (last.status == Completed ==> x.status == Completed);
      assert forall i :: 0 <= i < |init| ==> init[i] == orders[i];
      SetStatusCompletedRevenue(init, id);
      assert orders == init + [last];
      TotalRevenueStep(init, Store.SetStatus(init, id, Completed), last, x);
    }
  }

  /** The status buttons shown for an order: only a PENDING order has any,
      and they lead only to COMPLETED or CANCELLED. */
  function StatusActions(status: OrderStatus): (actions: seq<OrderStatus>)
    ensures forall t :: t in actions ==> status == Pending && (t == Completed || t == Cancelled)
    ensures status == Pending ==> Completed in actions && Cancelled in actions
  {
    if status == Pending then [Completed, Cancelled] else []
  }

  /** Taking an offered action on an order that is the only one with its id
      removes exactly one pending order. */
  lemma {:induction false} OfferedActionResolvesOne(orders: seq<Order>, k: nat, t: OrderStatus)
    requires k < |orders| && t in StatusActions(orders[k].status)
    requires forall i :: 0 <= i < |orders| && i != k ==> orders[i].id != orders[k].id
    ensures PendingCount(Store.SetStatus(orders, orders[k].id, t)) == PendingCount(orders) - 1
    decreases |orders|
  {
    var id := orders[k].id;
    var init, last := orders[..|orders| - 1], orders[|orders| - 1];
    var x := Store.Restatus(last, id, t);
    assert t != Pending;
    PendingCountAppend(Store.SetStatus(init, id, t), x);
    assert orders == init + [last];
    PendingCountAppend(init, last);
    if k == |orders| - 1 {
      Store.SetStatusAbsent(init, id, t);
    } else {
      assert forall i :: 0 <= i < |init| ==> init[i] == orders[i];
      OfferedActionResolvesOne(init, k, t);
    }
  }

  /** `packages.map(p => p.id === id ? {...p, price: newPrice} : p)`. */
  function UpdatePrice(packages: seq<Package>, id: string, newPrice: int): (r: seq<Package>)
    ensures |r| == |packages|
    ensures forall i :: 0 <= i < |r| ==> r[i].id == packages[i].id
    ensures forall i :: 0 <= i < |r| ==>
      r[i] == if packages[i].id == id then packages[i].(price := newPrice) else packages[i]
  {
    if packages == [] then []
    else
      var p := packages[0];
      [if p.id == id then p.(price := newPrice) else p] + UpdatePrice(packages[1..], id, newPrice)
  }

  /** A price edit keeps the catalog's invariants, and positivity of prices
      as long as the new price is positive. */
  lemma UpdatePriceKeepsCatalog(packages: seq<Package>, id: string, newPrice: int)
    ensures Constants.DistinctIds(packages) ==> Constants.DistinctIds(UpdatePrice(packages, id, newPrice))
    ensures Constants.AmountsFitKinds(packages) ==> Constants.AmountsFitKinds(UpdatePrice(packages, id, newPrice))
    ensures Constants.DeliveryFitsKinds(packages) ==> Constants.DeliveryFitsKinds(UpdatePrice(packages, id, newPrice))
    ensures Constants.PositivePrices(packages) && newPrice > 0 ==>
      Constants.PositivePrices(UpdatePrice(packages, id, newPrice))
  {
  }

  /** The add-package form: a partial package whose fields may be missing. */
  datatype PackageDraft = PackageDraft(
    name: Option<string>,
    price: Option<int>,
    amount: Option<int>,
    kind: Option<PackageType>,
    deliveryTime: Option<string>)

  /** The form's state when the panel opens and after each addition. */
  const FRESH_DRAFT: PackageDraft :=
    PackageDraft(Some(""), Some(0), Some(0), Some(Diamond), Some("5-10 Min"))

  /** JavaScript's `s || fallback` on an optional string: a missing or
      empty string gives the fallback. */
  function StringOr(s: Option<string>, fallback: string): (r: string)
    ensures s.Some? && s.value != "" ==> r == s.value
    ensures (s.None? || s.value == "") ==> r == fallback
  {
    if s.Some? && s.value != "" then s.value else fallback
  }

  /** `Number(n) || 0` on an optional whole number. */
  function NumberOrZero(n: Option<int>): (r: int)
    ensures n.Some? ==> r == n.value
    ensures n.None? ==> r == 0
  {
    if n.Some? then n.value else 0
  }

  /** The package `handleAddPackage` builds; the timestamp is a parameter. */
  function BuildPackage(draft: PackageDraft, timestamp: string): (p: Package)
    ensures IsPrefix("pkg-", p.id) && p.id[4..] == timestamp
    ensures p.name == StringOr(draft.name, "") && p.deliveryTime == StringOr(draft.deliveryTime, "5-10 Min")
    ensures p.price == NumberOrZero(draft.price) && p.amount == NumberOrZero(draft.amount)
    ensures p.kind == (if draft.kind.Some? then draft.kind.value else Diamond)
    ensures p.deliveryTime != ""
  {
    Package("pkg-" + timestamp,
            StringOr(draft.name, ""),
            NumberOrZero(draft.amount),
            NumberOrZero(draft.price),
            if draft.kind.Some? then draft.kind.value else Diamond,
            StringOr(draft.deliveryTime, "5-10 Min"))
  }

  /** Missing fields and the untouched fresh form give the same package:
      the fallbacks agree with the form's reset values. */
  lemma DraftDefaultsAgree(timestamp: string)
    ensures var empty := PackageDraft(None, None, None, None, None);
      BuildPackage(empty, timestamp) == BuildPackage(FRESH_DRAFT, timestamp)
    ensures BuildPackage(FRESH_DRAFT, timestamp) ==
      Package("pkg-" + timestamp, "", 0, 0, Diamond, Constants.DeliveryTimeFor(Diamond))
  {
  }

  /** One input of the add form: `setNewPkg({...newPkg, f: value})`. The
      form has no delivery-time input. */
  datatype DraftEdit = SetName(name: string) | SetPrice(price: int)
                     | SetAmount(amount: int) | SetKind(kind: PackageType)

  /** The type select lists only the diamond and membership kinds. */
  predicate OfferedEdit(edit: DraftEdit) {
    edit.SetKind? ==> edit.kind != InGame
  }

  /** The edited field takes the value; every other field keeps its own. */
  function ApplyDraftEdit(draft: PackageDraft, edit: DraftEdit): (r: PackageDraft)
    ensures edit.SetName? ==> r == draft.(name := Some(edit.name))
    ensures edit.SetPrice? ==> r == draft.(price := Some(edit.price))
    ensures edit.SetAmount? ==> r == draft.(amount := Some(edit.amount))
    ensures edit.SetKind? ==> r == draft.(kind := Some(edit.kind))
    ensures r.deliveryTime == draft.deliveryTime
  {
    match edit
    case SetName(n) => draft.(name := Some(n))
    case SetPrice(p) => draft.(price := Some(p))
    case SetAmount(a) => draft.(amount := Some(a))
    case SetKind(k) => draft.(kind := Some(k))
  }

  /** The drafts the add form can hold: every field present, a kind the
      select offers, and the fresh draft's delivery estimate. */
  predicate DraftReachable(draft: PackageDraft) {
    && draft.name.Some? && draft.price.Some? && draft.amount.Some?
    && draft.kind.Some? && draft.kind.value != InGame
    && draft.deliveryTime == Some(Constants.DeliveryTimeFor(Diamond))
  }

  /** The fresh draft is reachable and offered edits keep drafts reachable. */
  lemma DraftEditsStayReachable(draft: PackageDraft, edit: DraftEdit)
    ensures DraftReachable(FRESH_DRAFT)
    ensures DraftReachable(draft) && OfferedEdit(edit) ==> DraftReachable(ApplyDraftEdit(draft, edit))
  {
  }

  /** Every package the panel adds is a UID pack or a membership delivered
      in 5-10 minutes; an added membership therefore does not carry the
      10-30 minute estimate of the seed memberships. */
  lemma ReachableDraftBuild(draft: PackageDraft, timestamp: string)
    requires DraftReachable(draft)
    ensures BuildPackage(draft, timestamp).kind != InGame
    ensures BuildPackage(draft, timestamp).deliveryTime == Constants.DeliveryTimeFor(Diamond)
    ensures BuildPackage(draft, timestamp).kind == Membership ==>
      BuildPackage(draft, timestamp).deliveryTime != Constants.DeliveryTimeFor(Membership)
  {
  }

  /** The add form's `required` inputs: the browser submits it only with a
      non-empty name and a value in both number fields. */
  predicate DraftSubmittable(draft: PackageDraft) {
    draft.name.Some? && draft.name.value != "" && draft.price.Some? && draft.amount.Some?
  }

  /** A draft the browser lets through becomes a package with exactly the
      name, price and amount typed in; none of the fallbacks apply. */
  lemma SubmittedDraftKept(draft: PackageDraft, timestamp: string)
    requires DraftSubmittable(draft)
    ensures BuildPackage(draft, timestamp).name == draft.name.value != ""
    ensures BuildPackage(draft, timestamp).price == draft.price.value
    ensures BuildPackage(draft, timestamp).amount == draft.amount.value
  {
  }

  /** The six editable settings; the service-charge percent has no input. */
  datatype SettingsField = Bkash | Nagad | Binance | Notice | WhatsApp | Telegram

  function GetSetting(s: SiteSettings, f: SettingsField): string {
    match f
    case Bkash => s.bkashNumber
    case Nagad => s.nagadNumber
    case Binance => s.binanceId
    case Notice => s.noticeText
    case WhatsApp => s.whatsapp
    case Telegram => s.telegram
  }

  /** `setSettings({...settings, f: value})`: one field changes; the others
      and the service-charge percent keep their values. */
  function SetSetting(s: SiteSettings, f: SettingsField, value: string): (r: SiteSettings)
    ensures GetSetting(r, f) == value
    ensures forall g :: g != f ==> GetSetting(r, g) == GetSetting(s, g)
    ensures r.serviceChargePercent == s.serviceChargePercent
  {
    match f
    case Bkash => s.(bkashNumber := value)
    case Nagad => s.(nagadNumber := value)
    case Binance => s.(binanceId := value)
    case Notice => s.(noticeText := value)
    case WhatsApp => s.(whatsapp := value)
    case Telegram => s.(telegram := value)
  }

  /** Writing back a field's own value changes nothing. */
  lemma SetSettingSameValue(s: SiteSettings, f: SettingsField)
    ensures SetSetting(s, f, GetSetting(s, f)) == s
  {
  }

  /** The panel's state slots. */
  class AdminPanelState {
    var orders: seq<Order>
    var packages: seq<Package>
    var settings: SiteSettings
    var newPkg: PackageDraft
    var showAddModal: bool

    /** The draft is always one the add form can hold. */
    predicate Valid()
      reads this
    {
      DraftReachable(newPkg)
    }

    constructor (st: Store.Store)
      ensures orders == st.orders && packages == st.packages && settings == st.settings
      ensures newPkg == FRESH_DRAFT && !showAddModal
      ensures Valid()
    {
      orders := st.orders;
      packages := st.packages;
      settings := st.settings;
      newPkg := FRESH_DRAFT;
      showAddModal := false;
    }

    method HandleUpdateStatus(st: Store.Store, id: string, status: OrderStatus)
      modifies this, st
      ensures st.orders == Store.SetStatus(old(st.orders), id, status) && orders == st.orders
      ensures st.packages == old(st.packages) && st.settings == old(st.settings)
      ensures st.currentUser == old(st.currentUser)
      ensures packages == old(packages) && settings == old(settings)
      ensures newPkg == old(newPkg) && showAddModal == old(showAddModal)
    {
      st.UpdateOrderStatus(id, status);
      orders := st.orders;
    }

    /** `confirmed` is the answer to the browser's confirmation dialog. */
    method HandleDeletePackage(st: Store.Store, id: string, confirmed: bool)
      modifies this, st
      ensures confirmed ==> st.packages == Store.RemovePackage(old(st.packages), id) && packages == st.packages
      ensures !confirmed ==> st.packages == old(st.packages) && packages == old(packages)
      ensures st.orders == old(st.orders) && st.settings == old(st.settings)
      ensures st.currentUser == old(st.currentUser)
      ensures orders == old(orders) && settings == old(settings)
      ensures newPkg == old(newPkg) && showAddModal == old(showAddModal)
    {
      if confirmed {
        st.DeletePackage(id);
        packages := st.packages;
      }
    }

    method OpenAddModal()
      modifies this
      ensures showAddModal
      ensures orders == old(orders) && packages == old(packages) && settings == old(settings)
      ensures newPkg == old(newPkg)
    {
      showAddModal := true;
    }

    /** The close button hides the form and keeps the draft. */
    method CloseAddModal()
      modifies this
      ensures !showAddModal
      ensures orders == old(orders) && packages == old(packages) && settings == old(settings)
      ensures newPkg == old(newPkg)
    {
      showAddModal := false;
    }

    /** One add-form input changes its field of the draft. */
    method EditDraft(edit: DraftEdit)
      requires Valid() && OfferedEdit(edit)
      modifies this
      ensures newPkg == ApplyDraftEdit(old(newPkg), edit) && Valid()
      ensures orders == old(orders) && packages == old(packages) && settings == old(settings)
      ensures showAddModal == old(showAddModal)
    {
      DraftEditsStayReachable(newPkg, edit);
      newPkg := ApplyDraftEdit(newPkg, edit);
    }

    /** Pressing "Save Package"; `timestamp` stands for `Date.now()`. The
        browser submits only the open form with its required inputs filled;
        otherwise nothing is added and the form stays as it is. */
    method HandleAddPackage(st: Store.Store, timestamp: string) returns (added: Option<Package>)
      requires Valid()
      modifies this, st
      ensures Valid()
      ensures added.Some? ==> added.value.kind != InGame
      ensures added.Some? ==> added.value.deliveryTime == Constants.DeliveryTimeFor(Diamond)
      ensures added.Some? <==> old(showAddModal) && DraftSubmittable(old(newPkg))
      ensures added.Some? ==> added.value == BuildPackage(old(newPkg), timestamp)
      ensures added.Some? ==> st.packages == old(st.packages) + [added.value] && packages == st.packages
      ensures added.Some? ==> newPkg == FRESH_DRAFT && !showAddModal
      ensures added.None? ==> st.packages == old(st.packages) && packages == old(packages)
      ensures added.None? ==> newPkg == old(newPkg) && showAddModal == old(showAddModal)
      ensures st.orders == old(st.orders) && st.settings == old(st.settings)
      ensures st.currentUser == old(st.currentUser)
      ensures orders == old(orders) && settings == old(settings)
    {
      if showAddModal && DraftSubmittable(newPkg) {
        var p := BuildPackage(newPkg, timestamp);
        ReachableDraftBuild(newPkg, timestamp);
        DraftEditsStayReachable(newPkg, SetName(""));
        st.AddPackage(p);
        packages := st.packages;
        showAddModal := false;
        newPkg := FRESH_DRAFT;
        added := Some(p);
      } else {
        added := None;
      }
    }

    /** The edit maps over the panel's own copy of the catalog and writes
        the result to the store; orders, which hold their own prices, are
        untouched. */
    method HandleUpdatePrice(st: Store.Store, id: string, newPrice: int)
      modifies this, st
      ensures packages == UpdatePrice(old(packages), id, newPrice) && st.packages == packages
      ensures st.orders == old(st.orders) && st.settings == old(st.settings)
      ensures st.currentUser == old(st.currentUser)
      ensures orders == old(orders) && settings == old(settings)
      ensures newPkg == old(newPkg) && showAddModal == old(showAddModal)
    {
      var updated := UpdatePrice(packages, id, newPrice);
      st.UpdatePackages(updated);
      packages := updated;
    }

    /** A settings input's `onChange`: local to the panel until saved. */
    method EditSetting(f: SettingsField, value: string)
      modifies this
      ensures settings == SetSetting(old(settings), f, value)
      ensures orders == old(orders) && packages == old(packages)
      ensures newPkg == old(newPkg) && showAddModal == old(showAddModal)
    {
      settings := SetSetting(settings, f, value);
    }

    method SaveSettings(st: Store.Store)
      modifies st
      ensures st.settings == settings
      ensures st.orders == old(st.orders) && st.packages == old(st.packages)
      ensures st.currentUser == old(st.currentUser)
    {
      st.UpdateSettings(settings);
    }
  }
}

=== FILE: constants.dfy ===
/** The seed catalog, the default site settings and the administrator
    identifier, with the invariants the seed data satisfies. */
module Constants {
  import opened Types

  /** The delivery estimate each product kind is sold with. */
  function DeliveryTimeFor(kind: PackageType): string {
    match kind
    case Diamond => "5-10 Min"
    case InGame => "15-45 Min"
    case Membership => "10-30 Min"
  }

  predicate DistinctIds(ps: seq<Package>) {
    forall i, j :: 0 <= i < j < |ps| ==> ps[i].id != ps[j].id
  }

  predicate PositivePrices(ps: seq<Package>) {
    forall i :: 0 <= i < |ps| ==> ps[i].price > 0
  }

  /** Memberships carry no diamonds; the two diamond kinds carry some. */
  predicate AmountsFitKinds(ps: seq<Package>) {
    forall i :: 0 <= i < |ps| ==>
      if ps[i].kind == Membership then ps[i].amount == 0 else ps[i].amount > 0
  }

  /** Within one diamond kind, later entries hold more diamonds and cost more. */
  predicate PricesRiseWithAmount(ps: seq<Package>) {
    forall i, j :: 0 <= i < j < |ps| && ps[i].kind == ps[j].kind && ps[i].kind != Membership ==>
      ps[i].amount < ps[j].amount && ps[i].price < ps[j].price
  }

  predicate DeliveryFitsKinds(ps: seq<Package>) {
    forall i :: 0 <= i < |ps| ==> ps[i].deliveryTime == DeliveryTimeFor(ps[i].kind)
  }

  const INITIAL_PACKAGES: seq<Package> := [
    Package("uid-25", "25 Diamonds", 25, 22, Diamond, "5-10 Min"),
    Package("uid-50", "50 Diamonds", 50, 40, Diamond, "5-10 Min"),
    Package("uid-115", "115 Diamonds", 115, 80, Diamond, "5-10 Min"),
    Package("uid-240", "240 Diamonds", 240, 160, Diamond, "5-10 Min"),
    Package("uid-355", "355 Diamonds", 355, 240, Diamond, "5-10 Min"),
    Package("uid-480", "480 Diamonds", 480, 320, Diamond, "5-10 Min"),
    Package("uid-610", "610 Diamonds", 610, 405, Diamond, "5-10 Min"),
    Package("uid-1240", "1240 Diamonds", 1240, 810, Diamond, "5-10 Min"),
    Package("uid-2530", "2530 Diamonds", 2530, 1620, Diamond, "5-10 Min"),
    Package("ig-100", "100 Diamonds (In-Game)", 100, 65, InGame, "15-45 Min"),
    Package("ig-310", "310 Diamonds (In-Game)", 310, 195, InGame, "15-45 Min"),
    Package("ig-520", "520 Diamonds (In-Game)", 520, 325, InGame, "15-45 Min"),
    Package("ig-1060", "1060 Diamonds (In-Game)", 1060, 640, InGame, "15-45 Min"),
    Package("m-weekly", "Weekly Membership", 0, 155, Membership, "10-30 Min"),
    Package("m-monthly", "Monthly Membership", 0, 750, Membership, "10-30 Min"),
    Package("m-levelup", "Level Up Pass", 0, 185, Membership, "10-30 Min"),
    Package("m-combo", "Weekly + Monthly Combo", 0, 895, Membership, "10-30 Min")
  ]

  const DEFAULT_SETTINGS: SiteSettings := SiteSettings(
    "01619789895",
    "01619789895",
    "1210169527",
    "EgyTopup স্টাইলে এখন আপনি পাচ্ছেন সবচে\U{09DF}ে কম দামে ডায়মন্ড! আমাদের সাথে থাকার জন্য ধন্যবাদ। রি\U{09DF}েল-টাইম ডেলিভারি নিশ্চিত করতে UID সঠিক দিন।",
    0,
    "8801619789895",
    "freefiretopupstore")

  const ADMIN_UID: string := "7382970242"

  /** No seed id from `lo` to `hi` recurs later in the catalog. */
  predicate IdsFreshFrom(ps: seq<Package>, lo: nat, hi: nat) {
    forall i, j :: lo <= i < hi && i < j < |ps| ==> ps[i].id != ps[j].id
  }

  lemma InitialIdsFresh0To2()
    ensures IdsFreshFrom(INITIAL_PACKAGES, 0, 2)
  {
  }

  lemma InitialIdsFresh2To4()
    ensures IdsFreshFrom(INITIAL_PACKAGES, 2, 4)
  {
  }

  lemma InitialIdsFresh4To6()
    ensures IdsFreshFrom(INITIAL_PACKAGES, 4, 6)
  {
  }

  lemma InitialIdsFresh6To9()
    ensures IdsFreshFrom(INITIAL_PACKAGES, 6, 9)
  {
  }

  lemma InitialIdsFresh9To17()
    ensures IdsFreshFrom(INITIAL_PACKAGES, 9, 17)
  {
  }

  lemma InitialCatalogIdsDistinct()
    ensures DistinctIds(INITIAL_PACKAGES)
  {
    InitialIdsFresh0To2();
    InitialIdsFresh2To4();
    InitialIdsFresh4To6();
    InitialIdsFresh6To9();
    InitialIdsFresh9To17();
  }

  lemma InitialCatalogPricesPositive()
    ensures |INITIAL_PACKAGES| == 17
    ensures PositivePrices(INITIAL_PACKAGES)
  {
  }

  lemma InitialCatalogAmountsFitKinds()
    ensures AmountsFitKinds(INITIAL_PACKAGES)
  {
  }

  lemma InitialCatalogDeliveryFitsKinds()
    ensures DeliveryFitsKinds(INITIAL_PACKAGES)
  {
  }

  /** The seed catalog lists the UID packs, then the in-game packs, then the
      memberships. */
  lemma InitialCatalogGroupedByKind()
    ensures forall i :: 0 <= i < 9 ==> INITIAL_PACKAGES[i].kind == Diamond
    ensures forall i :: 9 <= i < 13 ==> INITIAL_PACKAGES[i].kind == InGame
    ensures forall i :: 13 <= i < 17 ==> INITIAL_PACKAGES[i].kind == Membership
  {
  }

  /** Amounts and prices that rise from each entry to the next over
      `ps[lo..hi]` rise between any two entries of that range. */
  lemma {:induction false} RiseFromSteps(ps: seq<Package>, lo: nat, hi: nat)
    requires lo <= hi <= |ps|
    requires forall k :: lo <= k && k + 1 < hi ==>
      ps[k].amount < ps[k + 1].amount && ps[k].price < ps[k + 1].price
    ensures forall i, j :: lo <= i < j < hi ==>
      ps[i].amount < ps[j].amount && ps[i].price < ps[j].price
    decreases hi - lo
  {
    if hi - lo > 1 {
      RiseFromSteps(ps, lo, hi - 1);
      forall i | lo <= i < hi - 1
        ensures ps[i].amount < ps[hi - 1].amount && ps[i].price < ps[hi - 1].price
      {
        if i < hi - 2 {
          assert ps[i].amount < ps[hi - 2].amount && ps[i].price < ps[hi - 2].price;
        }
      }
    }
  }

  /** Each UID pack and each in-game pack holds more diamonds and costs more
      than the one before it. */
  lemma InitialCatalogSteps()
    ensures forall k :: 0 <= k && k + 1 < 9 ==>
      INITIAL_PACKAGES[k].amount < INITIAL_PACKAGES[k + 1].amount &&
      INITIAL_PACKAGES[k].price < INITIAL_PACKAGES[k + 1].price
    ensures forall k :: 9 <= k && k + 1 < 13 ==>
      INITIAL_PACKAGES[k].amount < INITIAL_PACKAGES[k + 1].amount &&
      INITIAL_PACKAGES[k].price < INITIAL_PACKAGES[k + 1].price
  {
  }

  lemma InitialCatalogPricesRise()
    ensures PricesRiseWithAmount(INITIAL_PACKAGES)
  {
    InitialCatalogGroupedByKind();
    InitialCatalogSteps();
    RiseFromSteps(INITIAL_PACKAGES, 0, 9);
    RiseFromSteps(INITIAL_PACKAGES, 9, 13);
  }

  /** The notice is kept code point for code point: 137 characters, two of
      them the precomposed letter U+09DF, which a decomposed spelling would
      write as two. */
  lemma DefaultNoticeTextExact()
    ensures |DEFAULT_SETTINGS.noticeText| == 137
  {
  }

  lemma DefaultServiceChargeInRange()
    ensures 0 <= DEFAULT_SETTINGS.serviceChargePercent <= 100
    ensures DEFAULT_SETTINGS.serviceChargePercent == 0
  {
  }
}

=== FILE: dashboard.dfy ===
/** The user dashboard: the signed-in user's orders, the total they have
    spent on completed orders, the badge shown per status and the empty state. */
module Dashboard {
  import opened Types
  import opened Seqs
  import AdminPanel

  function OwnedBy(userId: string): Order -> bool {
    (o: Order) => o.userId == userId
  }

  /** `allOrders.filter(o => o.userId === user.id)`. */
  function UserOrders(all: seq<Order>, userId: string): (r: seq<Order>)
    ensures |r| <= |all|
  {
    Filter(OwnedBy(userId), all)
  }

  /** Exactly this user's orders, each as often as in the store, in store order. */
  lemma UserOrdersExactly(all: seq<Order>, userId: string, o: Order)
    ensures o in UserOrders(all, userId) <==> o in all && o.userId == userId
    ensures multiset(UserOrders(all, userId))[o] == if o.userId == userId then multiset(all)[o] else 0
    ensures IsSubsequence(UserOrders(all, userId), all)
  {
    FilterMembership(OwnedBy(userId), all, o);
    FilterMultiplicity(OwnedBy(userId), all, o);
    FilterIsSubsequence(OwnedBy(userId), all);
  }

  /** Orders placed later by anyone extend a user's list only with their own. */
  lemma UserOrdersAppend(all: seq<Order>, more: seq<Order>, userId: string)
    ensures UserOrders(all + more, userId) == UserOrders(all, userId) + UserOrders(more, userId)
  {
    FilterAppend(OwnedBy(userId), all, more);
  }

  /** The user's completed orders' totals, summed. */
  function TotalSpent(all: seq<Order>, userId: string): int {
    SumBy(TotalOf(), Filter(HasStatus(Completed), UserOrders(all, userId)))
  }

  lemma TotalSpentBounds(all: seq<Order>, userId: string)
    requires forall i :: 0 <= i < |all| ==> all[i].totalPayable >= 0
    ensures 0 <= TotalSpent(all, userId) <= SumBy(TotalOf(), UserOrders(all, userId))
    ensures UserOrders(all, userId) == [] ==> TotalSpent(all, userId) == 0
  {
    var mine := UserOrders(all, userId);
    forall x | x in mine ensures TotalOf()(x) >= 0 {
      FilterMembership(OwnedBy(userId), all, x);
    }
    SumByFilterLe(TotalOf(), HasStatus(Completed), mine);
  }

  /** What one user has spent is part of the revenue the admin panel shows. */
  lemma TotalSpentAtMostRevenue(all: seq<Order>, userId: string)
    requires forall i :: 0 <= i < |all| ==> all[i].totalPayable >= 0
    ensures TotalSpent(all, userId) <= AdminPanel.TotalRevenue(all)
  {
    var done := Filter(HasStatus(Completed), all);
    FilterCommutes(HasStatus(Completed), OwnedBy(userId), all);
    forall x | x in done ensures TotalOf()(x) >= 0 {
      FilterMembership(HasStatus(Completed), all, x);
    }
    SumByFilterLe(TotalOf(), OwnedBy(userId), done);
  }

  /** The badge classes per status. */
  function StatusColor(status: OrderStatus): string {
    match status
    case Pending => "text-amber-400 bg-amber-400/20 border-amber-400/30"
    case Processing => "text-blue-400 bg-blue-400/20 border-blue-400/30"
    case Completed => "text-emerald-400 bg-emerald-400/20 border-emerald-400/30"
    case Cancelled => "text-red-400 bg-red-400/20 border-red-400/30"
  }

  /** The four badges have four different lengths. */
  lemma StatusColorLength(status: OrderStatus)
    ensures |StatusColor(status)| == match status
      case Pending => 50
      case Processing => 47
      case Completed => 56
      case Cancelled => 44
  {
  }

  lemma StatusColorsDistinct(s1: OrderStatus, s2: OrderStatus)
    ensures StatusColor(s1) == StatusColor(s2) <==> s1 == s2
  {
    StatusColorLength(s1);
    StatusColorLength(s2);
  }

  /** The "No Records Found" card replaces the list. */
  predicate ShowsEmptyState(all: seq<Order>, userId: string) {
    |UserOrders(all, userId)| == 0
  }

  lemma EmptyStateExactlyWithoutOrders(all: seq<Order>, userId: string)
    ensures ShowsEmptyState(all, userId) <==> forall i :: 0 <= i < |all| ==> all[i].userId != userId
  {
    var mine := UserOrders(all, userId);
    if |mine| != 0 {
      FilterMembership(OwnedBy(userId), all, mine[0]);
    } else {
      forall i | 0 <= i < |all| ensures all[i].userId != userId {
        FilterMembership(OwnedBy(userId), all, all[i]);
      }
    }
  }
}

=== FILE: home.dfy ===
/** The storefront home page: the catalog filtered by the selected category
    tab, and the three tabs themselves. */
module Home {
  import opened Types
  import opened Seqs
  import Constants

  /** The tab selected when the page opens. */
  const DEFAULT_FILTER: PackageType := Diamond

  /** The category tabs, in display order: each kind with its label. */
  const CATEGORIES: seq<(PackageType, string)> :=
    [(Diamond, "UID TOPUP"), (InGame, "IN-GAME"), (Membership, "SUBSCRIPTIONS")]

  function OfKind(kind: PackageType): Package -> bool {
    (p: Package) => p.kind == kind
  }

  /** `packages.filter(p => p.type === filter)`. */
  function FilteredPackages(packages: seq<Package>, filter: PackageType): (r: seq<Package>)
    ensures |r| <= |packages|
  {
    Filter(OfKind(filter), packages)
  }

  /** The tab shows every catalog package of its kind and nothing else,
      in catalog order. */
  lemma FilteredPackagesExactly(packages: seq<Package>, filter: PackageType, p: Package)
    ensures p in FilteredPackages(packages, filter) <==> p in packages && p.kind == filter
    ensures IsSubsequence(FilteredPackages(packages, filter), packages)
  {
    FilterMembership(OfKind(filter), packages, p);
    FilterIsSubsequence(OfKind(filter), packages);
  }

  /** Every package is listed under exactly one tab. */
  lemma {:induction false} TabsPartitionCatalog(packages: seq<Package>)
    ensures |FilteredPackages(packages, Diamond)| + |FilteredPackages(packages, InGame)|
          + |FilteredPackages(packages, Membership)| == |packages|
    decreases |packages|
  {
    if packages != [] {
      TabsPartitionCatalog(packages[..|packages| - 1]);
    }
  }

  lemma CategoriesCoverEachKindOnce(kind: PackageType)
    ensures |CATEGORIES| == 3
    ensures exists i :: 0 <= i < |CATEGORIES| && CATEGORIES[i].0 == kind
    ensures forall i, j :: 0 <= i < j < |CATEGORIES| ==> CATEGORIES[i].0 != CATEGORIES[j].0
    ensures CATEGORIES[0].0 == DEFAULT_FILTER
  {
    match kind
    case Diamond => assert CATEGORIES[0].0 == kind;
    case InGame => assert CATEGORIES[1].0 == kind;
    case Membership => assert CATEGORIES[2].0 == kind;
  }
}

=== FILE: layout.dfy ===
/** The page frame: navigation links and their highlighting, the admin
    button, and signing out. */
module Layout {
  import opened Types
  import Text
  import Constants
  import Store

  /** The navigation labels, in display order. */
  const NAV_ITEMS: seq<string> := ["Home", "How to Buy", "Contact"]

  /** A navigation item is highlighted when the current page is its slug. */
  predicate IsHighlighted(currentPage: string, item: string) {
    currentPage == Text.Slug(item)
  }

  lemma NavTargets()
    ensures Text.Slug(NAV_ITEMS[0]) == "home"
    ensures Text.Slug(NAV_ITEMS[1]) == "how-to-buy"
    ensures Text.Slug(NAV_ITEMS[2]) == "contact"
  {
    assert Text.Slug("Home") == "home";
    assert Text.Slug("How to Buy") == "how-to-buy";
    assert Text.Slug("Contact") == "contact";
  }

  /** At most one navigation item is highlighted on any page. */
  lemma HighlightUnique(currentPage: string, i: nat, j: nat)
    requires i < j < |NAV_ITEMS|
    ensures !(IsHighlighted(currentPage, NAV_ITEMS[i]) && IsHighlighted(currentPage, NAV_ITEMS[j]))
  {
    NavTargets();
  }

  /** The footer's "How to Buy" link and the home page's guide button go to
      "how-to", which is not the slug of the "How to Buy" item: on that page
      no navigation item is highlighted. */
  lemma GuideLinkNotHighlighted()
    ensures forall i :: 0 <= i < |NAV_ITEMS| ==> !IsHighlighted("how-to", NAV_ITEMS[i])
  {
    NavTargets();
  }

  /** The admin button is shown exactly to a signed-in user whose `uid` is
      the administrator identifier. */
  function ShowsAdminButton(currentUser: Option<User>): (shown: bool)
    ensures shown <==> currentUser.Some? && currentUser.value.uid == Constants.ADMIN_UID
  {
    match currentUser
    case None => false
    case Some(u) => u.uid == Constants.ADMIN_UID
  }

  class LayoutState {
    var currentUser: Option<User>

    constructor (st: Store.Store)
      ensures currentUser == st.currentUser
    {
      currentUser := st.currentUser;
    }

    /** Sign out: clear the user slot in the store and locally, then go to
        the home page, whose name is returned. */
    method HandleLogout(st: Store.Store) returns (page: string)
      modifies this, st
      ensures st.currentUser == None && currentUser == None && page == "home"
      ensures !ShowsAdminButton(currentUser)
      ensures st.packages == old(st.packages) && st.orders == old(st.orders)
      ensures st.settings == old(st.settings)
    {
      st.SetCurrentUser(None);
      currentUser := None;
      page := "home";
    }
  }
}

=== FILE: order_page.dfy ===
/** The order page: the service charge and total shown for the chosen
    package, the payment form with its defaults and required fields, the
    payee shown for the chosen payment method, and the submission that builds
    a PENDING order and appends it to the store. */
module OrderPage {
  import opened Types
  import Text
  import Constants
  import Store

  /** `Math.ceil(price * percent / 100)`: the least integer `c` with
      `100 * c >= price * percent`, so the charge is never rounded down. */
  function ServiceCharge(price: int, percent: int): (c: int)
    ensures 100 * c >= price * percent
    ensures 100 * (c - 1) < price * percent
  {
    var p := price * percent;
    (p + 99) / 100
  }

  /** `price + serviceCharge`: the price raised by `percent` per cent,
      rounded up to a whole currency unit. */
  function TotalPayable(price: int, percent: int): (t: int)
    ensures 100 * t >= price * (100 + percent)
    ensures 100 * (t - 1) < price * (100 + percent)
    ensures price * percent >= 0 ==> t >= price
    ensures percent == 0 ==> t == price
  {
    assert price * (100 + percent) == 100 * price + price * percent;
    price + ServiceCharge(price, percent)
  }

  /** Raising the price never lowers the charge, for a non-negative rate. */
  lemma ServiceChargeMonotone(price1: int, price2: int, percent: int)
    requires price1 <= price2 && 0 <= percent
    ensures ServiceCharge(price1, percent) <= ServiceCharge(price2, percent)
  {
    assert price1 * percent <= price2 * percent by {
      assert (price2 - price1) * percent >= 0;
      assert (price2 - price1) * percent == price2 * percent - price1 * percent;
    }
  }

  lemma ServiceChargeExamples()
    ensures ServiceCharge(155, 0) == 0 && ServiceCharge(100, 5) == 5 && ServiceCharge(101, 5) == 6
  {
    assert 155 * 0 == 0 && 100 * 5 == 500 && 101 * 5 == 505;
  }

  /** With the default settings the buyer pays exactly the package price. */
  lemma DefaultTotalIsPrice(price: int)
    ensures TotalPayable(price, Constants.DEFAULT_SETTINGS.serviceChargePercent) == price
  {
  }

  /** The payment form's fields. */
  datatype FormData = FormData(
    playerUid: string,
    playerName: string,
    paymentMethod: string,
    senderNumber: string,
    transactionId: string)

  datatype FormField = PlayerUid | PlayerName | PaymentMethod | SenderNumber | TransactionId

  const DEFAULT_FORM: FormData := FormData("", "", "bKash", "", "")

  /** The payment methods the form offers, in display order. */
  const PAYMENT_METHODS: seq<string> := ["bKash", "Nagad", "Binance"]

  lemma PaymentMethodsOffered()
    ensures DEFAULT_FORM.paymentMethod == PAYMENT_METHODS[0]
    ensures forall i, j :: 0 <= i < j < |PAYMENT_METHODS| ==> PAYMENT_METHODS[i] != PAYMENT_METHODS[j]
    ensures DEFAULT_FORM.playerUid == "" && DEFAULT_FORM.senderNumber == "" && DEFAULT_FORM.transactionId == ""
  {
  }

  function GetField(form: FormData, field: FormField): string {
    match field
    case PlayerUid => form.playerUid
    case PlayerName => form.playerName
    case PaymentMethod => form.paymentMethod
    case SenderNumber => form.senderNumber
    case TransactionId => form.transactionId
  }

  /** An input's `onChange` (`setFormData({...formData, f: value})`):
      that field takes the value and every other field keeps its own. */
  function SetField(form: FormData, field: FormField, value: string): (r: FormData)
    ensures GetField(r, field) == value
    ensures forall g :: g != field ==> GetField(r, g) == GetField(form, g)
  {
    match field
    case PlayerUid => form.(playerUid := value)
    case PlayerName => form.(playerName := value)
    case PaymentMethod => form.(paymentMethod := value)
    case SenderNumber => form.(senderNumber := value)
    case TransactionId => form.(transactionId := value)
  }

  /** The fields marked `required`: the browser lets the form submit only
      when these are non-empty. The account name is optional. */
  predicate RequiredFilled(form: FormData) {
    form.playerUid != "" && form.senderNumber != "" && form.transactionId != ""
  }

  lemma RequiredFieldsExactly(form: FormData, name: string)
    ensures RequiredFilled(form) ==> RequiredFilled(SetField(form, PlayerName, name))
    ensures !RequiredFilled(SetField(form, PlayerUid, ""))
    ensures !RequiredFilled(SetField(form, SenderNumber, ""))
    ensures !RequiredFilled(SetField(form, TransactionId, ""))
  {
  }

  /** The account the buyer is told to pay, by payment method. */
  function Payee(channel: string, settings: SiteSettings): (r: string)
    ensures channel == "bKash" ==> r == settings.bkashNumber
    ensures channel == "Nagad" ==> r == settings.nagadNumber
    ensures channel != "bKash" && channel != "Nagad" ==> r == settings.binanceId
  {
    if channel == "bKash" then settings.bkashNumber
    else if channel == "Nagad" then settings.nagadNumber
    else settings.binanceId
  }

  /** The three offered methods name the three payment destinations of the
      settings, one each, in the same order. */
  lemma PayeeOfOfferedMethods(settings: SiteSettings)
    ensures Payee(PAYMENT_METHODS[0], settings) == settings.bkashNumber
    ensures Payee(PAYMENT_METHODS[1], settings) == settings.nagadNumber
    ensures Payee(PAYMENT_METHODS[2], settings) == settings.binanceId
    ensures Payee(DEFAULT_FORM.paymentMethod, settings) == settings.bkashNumber
  {
    assert PAYMENT_METHODS[1] != "bKash";
    assert PAYMENT_METHODS[2] != "bKash" && PAYMENT_METHODS[2] != "Nagad";
  }

  /** `'ORD-' + suffix.toUpperCase()`; the random suffix is a parameter. */
  function OrderId(suffix: string): (id: string)
    ensures IsPrefix("ORD-", id) && |id| == 4 + |suffix|
    ensures id[4..] == Text.ToUpper(suffix)
    ensures forall i :: 4 <= i < |id| ==> !Text.IsLowerAscii(id[i])
  {
    "ORD-" + Text.ToUpper(suffix)
  }

  /** The order a submission builds: a snapshot of the package, the form and
      the price computed before submission, in status PENDING. */
  function NewOrder(pkg: Package, user: User, form: FormData, percent: int,
                    suffix: string, createdAt: string): (o: Order)
    ensures o.status == Pending && o.userId == user.id && IsPrefix("ORD-", o.id)
    ensures o.id == OrderId(suffix) && o.createdAt == createdAt
    ensures o.packageId == pkg.id && o.packageName == pkg.name
    ensures o.amount == pkg.amount && o.price == pkg.price
    ensures o.serviceCharge == ServiceCharge(pkg.price, percent)
    ensures WellPriced(o) && o.totalPayable == TotalPayable(pkg.price, percent)
    ensures o.playerUid == form.playerUid && o.playerName == form.playerName
    ensures o.paymentMethod == form.paymentMethod
    ensures o.senderNumber == form.senderNumber && o.transactionId == form.transactionId
  {
    var charge := ServiceCharge(pkg.price, percent);
    Order(OrderId(suffix), user.id, form.playerUid, form.playerName,
          pkg.id, pkg.name, pkg.amount, pkg.price,
          charge, pkg.price + charge,
          form.paymentMethod, form.senderNumber, form.transactionId,
          Pending, createdAt)
  }

  /** The component's state: the package, buyer and settings it was opened
      with, the form, and the submission slots. */
  class OrderPageState {
    const pkg: Package
    const user: User
    const settings: SiteSettings
    var formData: FormData
    var submittedForm: FormData
    var isSubmitting: bool
    var placedOrder: Option<Order>
    var showSuccess: bool

    /** The form and the captured form hold one of the offered payment
        methods: the default, or a tile the buyer clicked. */
    predicate Valid()
      reads this
    {
      formData.paymentMethod in PAYMENT_METHODS && submittedForm.paymentMethod in PAYMENT_METHODS
    }

    constructor (pkg: Package, user: User, settings: SiteSettings)
      ensures this.pkg == pkg && this.user == user && this.settings == settings
      ensures formData == DEFAULT_FORM && !isSubmitting && placedOrder == None && !showSuccess
      ensures Valid()
    {
      this.pkg := pkg;
      this.user := user;
      this.settings := settings;
      formData := DEFAULT_FORM;
      submittedForm := DEFAULT_FORM;
      isSubmitting := false;
      placedOrder := None;
      showSuccess := false;
    }

    /** The charge and total shown in the summary (recomputed on every render). */
    function ShownCharge(): int {
      ServiceCharge(pkg.price, settings.serviceChargePercent)
    }

    function ShownTotal(): int {
      TotalPayable(pkg.price, settings.serviceChargePercent)
    }

    /** The success card replaces the form once an order is placed. */
    predicate FormShown()
      reads this
    {
      !(showSuccess && placedOrder.Some?)
    }

    /** One input of the shown form changes. The payment method is set only
        by clicking one of the offered tiles. */
    method Edit(field: FormField, value: string)
      requires Valid() && FormShown()
      requires field == PaymentMethod ==> value in PAYMENT_METHODS
      modifies this
      ensures formData == SetField(old(formData), field, value)
      ensures Valid()
      ensures submittedForm == old(submittedForm) && isSubmitting == old(isSubmitting)
      ensures placedOrder == old(placedOrder) && showSuccess == old(showSuccess)
    {
      formData := SetField(formData, field, value);
    }

    /** Pressing "Place Order Now". The browser submits only a shown form
        whose required fields are filled, and the button is disabled while
        a submission is running. The form values are captured here: the
        delayed step below sees them, not later edits. */
    method Submit() returns (accepted: bool)
      requires Valid()
      modifies this
      ensures Valid()
      ensures accepted == (old(FormShown()) && !old(isSubmitting) && RequiredFilled(old(formData)))
      ensures accepted ==> isSubmitting && submittedForm == formData
      ensures !accepted ==> isSubmitting == old(isSubmitting) && submittedForm == old(submittedForm)
      ensures formData == old(formData) && placedOrder == old(placedOrder) && showSuccess == old(showSuccess)
    {
      accepted := FormShown() && !isSubmitting && RequiredFilled(formData);
      if accepted {
        isSubmitting := true;
        submittedForm := formData;
      }
    }

    /** The delayed part of the submission: build the order, append exactly
        that one order to the store and show it. */
    method Complete(st: Store.Store, suffix: string, createdAt: string) returns (o: Order)
      requires Valid() && isSubmitting
      modifies this, st
      ensures Valid() && o.paymentMethod in PAYMENT_METHODS
      ensures Payee(o.paymentMethod, settings) in [settings.bkashNumber, settings.nagadNumber, settings.binanceId]
      ensures o == NewOrder(pkg, user, old(submittedForm), settings.serviceChargePercent, suffix, createdAt)
      ensures o.serviceCharge == ShownCharge() && o.totalPayable == ShownTotal()
      ensures st.orders == old(st.orders) + [o]
      ensures st.packages == old(st.packages) && st.settings == old(st.settings)
      ensures st.currentUser == old(st.currentUser)
      ensures placedOrder == Some(o) && showSuccess && !isSubmitting
      ensures formData == old(formData) && submittedForm == old(submittedForm)
    {
      o := NewOrder(pkg, user, submittedForm, settings.serviceChargePercent, suffix, createdAt);
      st.AddOrder(o);
      placedOrder := Some(o);
      showSuccess := true;
      isSubmitting := false;
    }
  }
}

=== FILE: seqs.dfy ===
/** JavaScript's `Array.prototype.filter` and the summing `reduce`
    (`xs.reduce((acc, x) => acc + f(x), 0)`) as functions on sequences, with
    the facts the pages rely on: a filter keeps exactly the matching elements,
    with their multiplicities and in their original order. */
module Seqs {

  /** `s.filter(p)`: the elements of `s` satisfying `p`, in order. */
  function Filter<T(!new)>(p: T -> bool, s: seq<T>): (r: seq<T>)
    ensures |r| <= |s|
  {
    if s == [] then []
    else Filter(p, s[..|s| - 1]) + (if p(s[|s| - 1]) then [s[|s| - 1]] else [])
  }

  /** `s.reduce((acc, x) => acc + f(x), 0)`, folded from the left. */
  function SumBy<T>(f: T -> int, s: seq<T>): int {
    if s == [] then 0 else SumBy(f, s[..|s| - 1]) + f(s[|s| - 1])
  }

  /** `r` is obtained from `s` by deleting some elements, without reordering. */
  ghost predicate IsSubsequence<T>(r: seq<T>, s: seq<T>) {
    if r == [] then true
    else if s == [] then false
    else
      || (r[|r| - 1] == s[|s| - 1] && IsSubsequence(r[..|r| - 1], s[..|s| - 1]))
      || IsSubsequence(r, s[..|s| - 1])
  }

  lemma {:induction false} SubsequenceLength<T>(r: seq<T>, s: seq<T>)
    requires IsSubsequence(r, s)
    ensures |r| <= |s|
    decreases |s|
  {
    if r != [] {
      if r[|r| - 1] == s[|s| - 1] && IsSubsequence(r[..|r| - 1], s[..|s| - 1]) {
        SubsequenceLength(r[..|r| - 1], s[..|s| - 1]);
      } else {
        SubsequenceLength(r, s[..|s| - 1]);
      }
    }
  }

  /** `x` is kept by the filter exactly when it occurs in `s` and satisfies `p`. */
  lemma {:induction false} FilterMembership<T(!new)>(p: T -> bool, s: seq<T>, x: T)
    ensures x in Filter(p, s) <==> x in s && p(x)
    decreases |s|
  {
    if s != [] {
      var init, last := s[..|s| - 1], s[|s| - 1];
      assert s == init + [last];
      FilterMembership(p, init, x);
    }
  }

  /** Each matching element is kept as often as it occurs; others are dropped. */
  lemma {:induction false} FilterMultiplicity<T(!new)>(p: T -> bool, s: seq<T>, x: T)
    ensures multiset(Filter(p, s))[x] == if p(x) then multiset(s)[x] else 0
    decreases |s|
  {
    if s != [] {
      var init, last := s[..|s| - 1], s[|s| - 1];
      assert s == init + [last];
      FilterMultiplicity(p, init, x);
    }
  }

  lemma {:induction false} FilterAppend<T(!new)>(p: T -> bool, a: seq<T>, b: seq<T>)
    ensures Filter(p, a + b) == Filter(p, a) + Filter(p, b)
    decreases |b|
  {
    if b == [] {
      assert a + b == a;
    } else {
      var init, last := b[..|b| - 1], b[|b| - 1];
      assert (a + b)[..|a + b| - 1] == a + init;
      FilterAppend(p, a, init);
    }
  }

  /** Filtering keeps the original relative order. */
  lemma {:induction false} FilterIsSubsequence<T(!new)>(p: T -> bool, s: seq<T>)
    ensures IsSubsequence(Filter(p, s), s)
    decreases |s|
  {
    if s != [] {
      var init, last := s[..|s| - 1], s[|s| - 1];
      var r := Filter(p, s);
      FilterIsSubsequence(p, init);
      if p(last) {
        assert r[|r| - 1] == last && r[..|r| - 1] == Filter(p, init);
      } else {
        assert r == Filter(p, init);
      }
    }
  }

  /** Two filters commute. */
  lemma {:induction false} FilterCommutes<T(!new)>(p: T -> bool, q: T -> bool, s: seq<T>)
    ensures Filter(p, Filter(q, s)) == Filter(q, Filter(p, s))
    decreases |s|
  {
    if s != [] {
      var init, last := s[..|s| - 1], s[|s| - 1];
      FilterCommutes(p, q, init);
      var one := if p(last) && q(last) then [last] else [];
      FilterAppend(p, Filter(q, init), if q(last) then [last] else []);
      FilterAppend(q, Filter(p, init), if p(last) then [last] else []);
      assert Filter(p, if q(last) then [last] else []) == one;
      assert Filter(q, if p(last) then [last] else []) == one;
    }
  }

  lemma {:induction false} SumByAppend<T>(f: T -> int, a: seq<T>, b: seq<T>)
    ensures SumBy(f, a + b) == SumBy(f, a) + SumBy(f, b)
    decreases |b|
  {
    if b == [] {
      assert a + b == a;
    } else {
      assert (a + b)[..|a + b| - 1] == a + b[..|b| - 1];
      SumByAppend(f, a, b[..|b| - 1]);
    }
  }

  /** Dropping elements never raises a sum of non-negative terms. */
  lemma {:induction false} SumByFilterLe<T(!new)>(f: T -> int, p: T -> bool, s: seq<T>)
    requires forall x :: x in s ==> f(x) >= 0
    ensures 0 <= SumBy(f, Filter(p, s)) <= SumBy(f, s)
    decreases |s|
  {
    if s != [] {
      var init, last := s[..|s| - 1], s[|s| - 1];
      assert forall x :: x in init ==> x in s;
      SumByFilterLe(f, p, init);
      SumByAppend(f, Filter(p, init), if p(last) then [last] else []);
      assert SumBy(f, [last]) == f(last) by {
        assert [last][..0] == [];
      }
    }
  }
}

=== FILE: store.dfy ===
/** The application store as the pages see it through their calls: three
    collections (packages, orders, one settings record) and the single
    current-user slot. Its own implementation is not part of this model; each
    call is modelled by the plainest effect its call sites rely on (append,
    replace, overwrite, remove by id). */
module Store {
  import opened Types
  import opened Seqs
  import Constants

  /** `updateOrderStatus(id, status)` on the order list: each order is
      passed through `Restatus`, in place. */
  function SetStatus(orders: seq<Order>, id: string, status: OrderStatus): (r: seq<Order>)
    ensures |r| == |orders|
  {
    if orders == [] then []
    else SetStatus(orders[..|orders| - 1], id, status) + [Restatus(orders[|orders| - 1], id, status)]
  }

  /** One order under a status update: it gets the new status exactly when it
      carries the id; nothing else about it changes. */
  function Restatus(o: Order, id: string, status: OrderStatus): (r: Order)
    ensures r.(status := o.status) == o
    ensures r.status == (if o.id == id then status else o.status)
  {
    if o.id == id then o.(status := status) else o
  }

  /** The update keeps the list's length and order and restatuses each order
      where it stands. */
  lemma {:induction false} SetStatusSpec(orders: seq<Order>, id: string, status: OrderStatus)
    ensures forall i :: 0 <= i < |orders| ==>
      SetStatus(orders, id, status)[i] == Restatus(orders[i], id, status)
    decreases |orders|
  {
    if orders != [] {
      var init := orders[..|orders| - 1];
      SetStatusSpec(init, id, status);
      assert forall i :: 0 <= i < |init| ==> orders[i] == init[i];
    }
  }

  /** An id that no order carries leaves the order list as it was. */
  lemma SetStatusAbsent(orders: seq<Order>, id: string, status: OrderStatus)
    requires forall i :: 0 <= i < |orders| ==> orders[i].id != id
    ensures SetStatus(orders, id, status) == orders
  {
    SetStatusSpec(orders, id, status);
  }

  /** A status change keeps the pricing of every order intact. */
  lemma SetStatusKeepsPricing(orders: seq<Order>, id: string, status: OrderStatus)
    requires forall i :: 0 <= i < |orders| ==> WellPriced(orders[i])
    ensures forall i :: 0 <= i < |orders| ==> WellPriced(SetStatus(orders, id, status)[i])
  {
    SetStatusSpec(orders, id, status);
  }

  /** `deletePackage(id)`: the catalog without the packages carrying `id`. */
  function RemovePackage(packages: seq<Package>, id: string): (r: seq<Package>)
    ensures |r| <= |packages|
  {
    Filter(HasOtherId(id), packages)
  }

  function HasOtherId(id: string): Package -> bool {
    (p: Package) => p.id != id
  }

  lemma RemovePackageSpec(packages: seq<Package>, id: string, p: Package)
    ensures p in RemovePackage(packages, id) <==> p in packages && p.id != id
    ensures multiset(RemovePackage(packages, id))[p] == if p.id != id then multiset(packages)[p] else 0
    ensures IsSubsequence(RemovePackage(packages, id), packages)
  {
    FilterMembership(HasOtherId(id), packages, p);
    FilterMultiplicity(HasOtherId(id), packages, p);
    FilterIsSubsequence(HasOtherId(id), packages);
  }

  class Store {
    var packages: seq<Package>
    var orders: seq<Order>
    var settings: SiteSettings
    var currentUser: Option<User>

    /** A fresh store, seeded with the initial catalog and default settings. */
    constructor ()
      ensures packages == Constants.INITIAL_PACKAGES && orders == []
      ensures settings == Constants.DEFAULT_SETTINGS && currentUser == None
    {
      packages := Constants.INITIAL_PACKAGES;
      orders := [];
      settings := Constants.DEFAULT_SETTINGS;
      currentUser := None;
    }

    method AddOrder(o: Order)
      modifies this
      ensures orders == old(orders) + [o]
      ensures packages == old(packages) && settings == old(settings) && currentUser == old(currentUser)
    {
      orders := orders + [o];
    }

    method AddPackage(p: Package)
      modifies this
      ensures packages == old(packages) + [p]
      ensures orders == old(orders) && settings == old(settings) && currentUser == old(currentUser)
    {
      packages := packages + [p];
    }

    /** Removing a package leaves every order, which holds its own copy of
        the package's name and price, untouched. */
    method DeletePackage(id: string)
      modifies this
      ensures packages == RemovePackage(old(packages), id)
      ensures orders == old(orders) && settings == old(settings) && currentUser == old(currentUser)
    {
      packages := RemovePackage(packages, id);
    }

    method UpdatePackages(ps: seq<Package>)
      modifies this
      ensures packages == ps
      ensures orders == old(orders) && settings == old(settings) && currentUser == old(currentUser)
    {
      packages := ps;
    }

    method UpdateOrderStatus(id: string, status: OrderStatus)
      modifies this
      ensures orders == SetStatus(old(orders), id, status)
      ensures packages == old(packages) && settings == old(settings) && currentUser == old(currentUser)
    {
      orders := SetStatus(orders, id, status);
    }

    /** A full overwrite of the settings record, not a merge. */
    method UpdateSettings(s: SiteSettings)
      modifies this
      ensures settings == s
      ensures packages == old(packages) && orders == old(orders) && currentUser == old(currentUser)
    {
      settings := s;
    }

    method SetCurrentUser(u: Option<User>)
      modifies this
      ensures currentUser == u
      ensures packages == old(packages) && orders == old(orders) && settings == old(settings)
    {
      currentUser := u;
    }
  }
}

=== FILE: text.dfy ===
/** The string transforms the pages use: `toLowerCase`, `toUpperCase` and
    `replace(/ /g, '-')`, restricted to ASCII letters, and the navigation slug
    built from them. */
module Text {

  predicate IsUpperAscii(c: char) { 'A' <= c <= 'Z' }
  predicate IsLowerAscii(c: char) { 'a' <= c <= 'z' }

  function LowerChar(c: char): (d: char)
    ensures !IsUpperAscii(d)
    ensures IsUpperAscii(c) ==> IsLowerAscii(d) && d as int - 'a' as int == c as int - 'A' as int
    ensures IsUpperAscii(c) || d == c
  {
    if IsUpperAscii(c) then (c as int + 32) as char else c
  }

  function UpperChar(c: char): (d: char)
    ensures !IsLowerAscii(d)
    ensures IsLowerAscii(c) ==> IsUpperAscii(d) && d as int - 'A' as int == c as int - 'a' as int
    ensures IsLowerAscii(c) || d == c
  {
    if IsLowerAscii(c) then (c as int - 32) as char else c
  }

  /** `s.toLowerCase()` on ASCII. */
  function ToLower(s: string): (r: string)
    ensures |r| == |s|
    ensures forall i :: 0 <= i < |s| ==> r[i] == LowerChar(s[i])
  {
    seq(|s|, i requires 0 <= i < |s| => LowerChar(s[i]))
  }

  /** `s.toUpperCase()` on ASCII. */
  function ToUpper(s: string): (r: string)
    ensures |r| == |s|
    ensures forall i :: 0 <= i < |s| ==> r[i] == UpperChar(s[i])
  {
    seq(|s|, i requires 0 <= i < |s| => UpperChar(s[i]))
  }

  /** `s.replace(/ /g, '-')`: every space becomes one dash. */
  function DashSpaces(s: string): (r: string)
    ensures |r| == |s|
    ensures forall i :: 0 <= i < |s| ==> r[i] == if s[i] == ' ' then '-' else s[i]
  {
    seq(|s|, i requires 0 <= i < |s| => if s[i] == ' ' then '-' else s[i])
  }

  /** The page name a navigation item leads to:
      `item.toLowerCase().replace(/ /g, '-')`. */
  function Slug(item: string): (r: string)
    ensures |r| == |item|
    ensures forall i :: 0 <= i < |r| ==> r[i] != ' ' && !IsUpperAscii(r[i])
  {
    DashSpaces(ToLower(item))
  }

  /** Characters other than ASCII capitals and spaces pass through a slug unchanged. */
  lemma SlugKeeps(item: string, i: int)
    requires 0 <= i < |item| && !IsUpperAscii(item[i]) && item[i] != ' '
    ensures Slug(item)[i] == item[i]
  {
  }

  lemma SlugIdempotent(item: string)
    ensures Slug(Slug(item)) == Slug(item)
  {
    var s := Slug(item);
    forall i | 0 <= i < |s| ensures Slug(s)[i] == s[i] {
      SlugKeeps(s, i);
    }
  }

  /** A string already free of spaces and capitals is its own slug. */
  lemma SlugFixedPoint(page: string)
    requires forall i :: 0 <= i < |page| ==> page[i] != ' ' && !IsUpperAscii(page[i])
    ensures Slug(page) == page
  {
    forall i | 0 <= i < |page| ensures Slug(page)[i] == page[i] {
      SlugKeeps(page, i);
    }
  }
}

=== FILE: types.dfy ===
/** The records the storefront passes around: catalog packages, orders, the
    site settings singleton and the logged-in user. Amounts of money are whole
    currency units (taka); the JavaScript numbers of the storefront are modelled
    as unbounded integers. */
module Types {

  datatype Option<T> = None | Some(value: T)

  /** The three product kinds of the catalog. */
  datatype PackageType = Diamond | InGame | Membership

  /** The lifecycle status of an order. */
  datatype OrderStatus = Pending | Processing | Completed | Cancelled

  datatype Package = Package(
    id: string,
    name: string,
    amount: int,
    price: int,
    kind: PackageType,
    deliveryTime: string)

  datatype SiteSettings = SiteSettings(
    bkashNumber: string,
    nagadNumber: string,
    binanceId: string,
    noticeText: string,
    serviceChargePercent: int,
    whatsapp: string,
    telegram: string)

  /** A user record. `id` owns orders; `uid` is what the navigation bar
      compares against the administrator identifier. */
  datatype User = User(id: string, uid: string, name: string, phone: string)

  datatype Order = Order(
    id: string,
    userId: string,
    playerUid: string,
    playerName: string,
    packageId: string,
    packageName: string,
    amount: int,
    price: int,
    serviceCharge: int,
    totalPayable: int,
    paymentMethod: string,
    senderNumber: string,
    transactionId: string,
    status: OrderStatus,
    createdAt: string)

  /** The pricing invariant of an order: its total is its price plus its charge. */
  predicate WellPriced(o: Order) {
    o.totalPayable == o.price + o.serviceCharge
  }

  /** The callbacks the pages pass to `filter` and `reduce` over orders. */
  function HasStatus(s: OrderStatus): Order -> bool {
    (o: Order) => o.status == s
  }

  function TotalOf(): Order -> int {
    (o: Order) => o.totalPayable
  }

  predicate IsPrefix(p: string, s: string) {
    |p| <= |s| && s[..|p|] == p
  }
}
